=== FILE: README.md ===
# MovieWorld catalogue: a Dafny model of the controller logic

MovieWorld is an ASP.NET Core web API over a movie catalogue. It stores movies and persons (actors), and a movie's cast is a many-to-many association with persons. This project models the decision logic of the two controllers, `MoviesController` and `PersonsController`, as pure state transitions over an immutable catalogue:

- **Store.** The `Catalogue` datatype (module `Entities`) holds a map from movie id to `Movie`, a map from person id to `Person`, and the next identity value of each table. Each movie carries its cast as a set of person ids, which stands in for the join table. SQL row order is unspecified, so each table also carries one fixed scan order: a duplicate-free enumeration of its keys. `Entities.Valid` is the store invariant. Every id is stored under itself, is positive and lies below the next identity value, and every cast member exists. Every action preserves it.
- **Actions.** Each action is a function from the catalogue and a request to a `Reply`: the next catalogue plus the response envelope. The envelope is `BaseResponseModel`, with `status`, `message` and an optional payload. A status of true is sent as HTTP 200 and false as HTTP 400. `ModelState` is an input holding a field-to-error map and is valid when that map is empty. Module `Validation` shows the errors that the `[Required]` attributes on `Title` and `Language` produce.
- **Upload.** Module `PosterUpload` models the file-name decision of `UploadMoviePoster`. It unquotes the content-disposition file name, applies .NET's `Path.GetExtension`, checks that extension case-sensitively against `.jpg`, `.jpeg` and `.png`, and names the stored file as a fresh stem followed by the same extension.

The update action is modelled **as written**. On success only `Title` and `CoverImage` take the request's values. The cast reconciliation removes the actors missing from the request and then adds those same actors back. It computes `addedActors` but never uses it, so the cast never changes. Both defects are listed under Findings, each with a corrected definition. The code itself shows the intent: it computes `addedActors` (MoviesController.cs:183) only to leave it unused, and it assigns `Description`, `Language` and `ReleaseDate` their own values (MoviesController.cs:171-173) right beside the `Title` and `CoverImage` assignments that take the request's values. A failed person lookup answers "Movie does not exist.", a message the code copies from the movie lookup; the model keeps that message.

Files: `collections.dfy` (distinct lists, `Filter`, Skip/Take `Page`, cardinality lemmas), `entities.dfy`, `responses.dfy` (envelope, view models, detail projections), `validation.dfy`, `movies_controller.dfy`, `persons_controller.dfy`, `poster_upload.dfy`, `catalogue_properties.dfy` (lemmas relating movie actions to person lookups).

## Model

| member | source | states |
|---|---|---|
| Collections.Page | MovieWorld.WebApi/Controllers/MoviesController.cs:32 | `Skip(skip).Take(take)`: at most `take` elements; none when `skip` is past the end; otherwise exactly `min(take, n - skip)`; element `k` is element `skip + k` of the input |
| MoviesController.GetAll | MovieWorld.WebApi/Controllers/MoviesController.cs:31-36 | The listing is the slice `[pageIndex*pageSize, pageIndex*pageSize + pageSize)` of the movie scan, each entry the stored movie. Its length is at most `pageSize`. `Count` is the total number of movies whatever the page. The store is unchanged |
| MoviesController.EveryMovieOnItsPage | MovieWorld.WebApi/Controllers/MoviesController.cs:32 | For page size `s > 0`, the movie at scan position `p` appears on page `p / s` at offset `p % s`, so paging loses no movie |
| MoviesController.GetMovieById | MovieWorld.WebApi/Controllers/MoviesController.cs:56-72 | An unknown id gives "Movie does not exist.". A known id gives "Success" with the movie's fields and its cast resolved to one view per cast member. The store is unchanged |
| MoviesController.MatchCountIffResolve | MovieWorld.WebApi/Controllers/MoviesController.cs:92-100 | The test "matched persons count differs from the list length" fails exactly when the id list has no duplicate and names only existing persons |
| MoviesController.AddMovie | MovieWorld.WebApi/Controllers/MoviesController.cs:90-122 | An invalid model gives "Validation failed." with the errors and the store unchanged. A cast that does not resolve gives "Invalid actors assigned." with the store unchanged. Otherwise one movie is inserted under the next identity, with the submitted fields and exactly the requested cast, and returned with "Created successfully.". The movie identity advances past the new id. Persons and the person identity are untouched, and the invariant is kept |
| MoviesController.Update | MovieWorld.WebApi/Controllers/MoviesController.cs:141-212 | The checks run in order: model state, `Id <= 0` ("Invalid movie record."), cast ("Invalid actors assigned."), existence ("Invalid movie record."). Each failure leaves the store unchanged. On success only `Title` and `CoverImage` change. Description, language, release date and cast keep their stored values, and the reply is "Updated successfully." with the updated detail |
| MoviesController.ReconcileAsWritten | MovieWorld.WebApi/Controllers/MoviesController.cs:176-188 | Removing `removedActors`, then adding `removedActors` back, leaves the cast exactly as it was, whatever the request |
| MoviesController.StaleCastExample | MovieWorld.WebApi/Controllers/MoviesController.cs:183-188 | With cast {1, 2} and request [2, 3], the reconciliation as written yields {1, 2}, not the requested {2, 3} |
| MoviesController.Reconcile | MovieWorld.WebApi/Controllers/MoviesController.cs:176-188 | The intended diff: remove `cast - requested` (a subset of the cast), add `requested - cast` (disjoint from it); applying both yields exactly `requested` |
| MoviesController.UpdateCorrected | MovieWorld.WebApi/Controllers/MoviesController.cs:170-188 | The same checks in the same order. On success every field takes the request's value and the cast becomes exactly the requested persons |
| MoviesController.Delete | MovieWorld.WebApi/Controllers/MoviesController.cs:239-255 | An unknown id gives "Invalid movie record." with the store unchanged. Otherwise only that movie and its cast associations are removed: its one position leaves the scan order and the other movies keep their order and their values, persons are untouched, both identity counters stay where they were (so a deleted id is never handed out again), and the reply is "Deleted successfully." with no payload |
| Responses.MovieDetailsOf | MovieWorld.WebApi/MappingProfiles.cs:12 | The detail view copies the movie's fields and lists each cast member exactly once, as the stored person's id, name and date of birth |
| Responses.PersonsIn | MovieWorld.WebApi/Controllers/MoviesController.cs:92 | `Persons.Where(p => ids.Contains(p.Id))` returns each existing named person once, so its count is the number of distinct named ids that exist |
| PosterUpload.UnquotedNameStripsQuotes | MovieWorld.WebApi/Controllers/MoviesController.cs:271 | `TrimStart('"').TrimEnd('"')` yields a contiguous slice of the name: everything before it and after it is a quote, and the slice neither starts nor ends with a quote. These facts determine the result |
| PosterUpload.ExtensionIsLastDotSuffix | MovieWorld.WebApi/Controllers/MoviesController.cs:281 | `Path.GetExtension` is empty exactly when no dot starts an extension. Such a dot is not the last character and is followed by no dot or separator. Otherwise the result is the suffix from that dot |
| PosterUpload.ExtensionOfSuffix | MovieWorld.WebApi/Controllers/MoviesController.cs:290 | Appending an extension-shaped suffix to any stem gives a name whose extension is that suffix |
| PosterUpload.Upload | MovieWorld.WebApi/Controllers/MoviesController.cs:271-306 | A missing file name gives "Error occured.". Otherwise the upload is accepted exactly when the unquoted name's extension is one of ".jpg", ".jpeg", ".png", compared case-sensitively. A rejection reads "Only .jpg, .jpeg, .png type files are allowed.". On acceptance the stored name is the stem plus that extension |
| PosterUpload.StoredNameKeepsExtension | MovieWorld.WebApi/Controllers/MoviesController.cs:290 | The stored name has the same extension as the uploaded name |
| PosterUpload.AllowedNameAccepted | MovieWorld.WebApi/Controllers/MoviesController.cs:279-290 | A name ending in a whitelisted extension, quoted or not, is stored as the stem plus that extension |
| PosterUpload.UpperCaseExtensionRejected | MovieWorld.WebApi/Controllers/MoviesController.cs:279-288 | A name ending in ".JPG" is rejected, bare or in the quotes the header carries, because no case folding is applied |
| PosterUpload.ExecutableRejected | MovieWorld.WebApi/Controllers/MoviesController.cs:279-288 | A name ending in ".exe" is rejected, bare or quoted, including "poster.png.exe": only the last extension counts |
| PersonsController.GetAll | MovieWorld.WebApi/Controllers/PersonsController.cs:30-35 | The listing is the slice `[pageIndex*pageSize, pageIndex*pageSize + pageSize)` of the person scan, as views. Its length is at most `pageSize`. `Count` is the total number of persons. The store is unchanged |
| PersonsController.MoviesStarring | MovieWorld.WebApi/Controllers/PersonsController.cs:70 | The movies that `Movies.Where(m => m.Actors.Contains(person))` returns are exactly those whose cast includes the person, each once |
| PersonsController.FilmTitles | MovieWorld.WebApi/Controllers/PersonsController.cs:70 | The titles are those of exactly the movies casting the person, one title per such movie: the list pairs position by position with a duplicate-free enumeration of those movies, so two movies with the same title give that title twice |
| PersonsController.GetPersonById | MovieWorld.WebApi/Controllers/PersonsController.cs:55-77 | An unknown id gives "Movie does not exist." with the store unchanged. A known id gives the person's id, name and date of birth, plus one title per movie casting them, paired position by position with a duplicate-free enumeration of those movies. The title list is empty exactly when no movie casts them |
| PersonsController.AddPerson | MovieWorld.WebApi/Controllers/PersonsController.cs:95-120 | An invalid model gives "Validation failed." with the store unchanged. Otherwise one person is inserted under the next identity with the submitted name and date of birth. The person identity advances past the new id. The returned model carries that id. No movie, existing person or movie identity changes |
| PersonsController.AddThenLookUpPerson | MovieWorld.WebApi/Controllers/PersonsController.cs:97-111 | Looking up a freshly added person by the returned id gives that person with an empty movie list |
| CatalogueProperties.AddedMovieInCastFilmographies | MovieWorld.WebApi/Controllers/MoviesController.cs:102-106 | After a successful add, every requested actor's person lookup lists the new title |
| CatalogueProperties.UpdateKeepsFilmographies | MovieWorld.WebApi/Controllers/MoviesController.cs:176-190 | An update as written never changes which movies cast any person |
| CatalogueProperties.DeleteDropsFromFilmographies | MovieWorld.WebApi/Controllers/MoviesController.cs:249-250 | After a delete, the deleted movie is in no person's filmography, and every other movie stays where it was |
| CatalogueProperties.AddThenLookUpMovie | MovieWorld.WebApi/Controllers/MoviesController.cs:102-114 | Looking up a freshly added movie by its new id gives the submitted fields and exactly the requested cast |
| Collections.FilterDropsAt | MovieWorld.WebApi/Controllers/MoviesController.cs:249-250 | Removing one row of a duplicate-free table drops exactly that position and keeps the others in order |
| Validation.CreateMovieModelState | MovieWorld.WebApi/Models/CreateMovieViewModel.cs:8-13 | The model state is valid exactly when `Title` and `Language` are both present and not blank. Each failing field records its own message under its name, and no other key appears |
| Entities.EmptyCatalogue | MovieWorld.WebApi/Data/MovieDbContext.cs:13-14 | A fresh database has no rows and satisfies the store invariant |

## Findings

| source | as written | input that shows it | evidently intended | confidence | as-written member | corrected member |
|---|---|---|---|---|---|---|
| MovieWorld.WebApi/Controllers/MoviesController.cs:183-188 | the second loop adds `removedActors` back; `addedActors` is computed and never used | a movie cast {1, 2} updated with actors [2, 3] keeps cast {1, 2} | the cast becomes {2, 3}: remove `cast - requested`, add `requested - cast` | high; not executed | MoviesController.StaleCastExample | MoviesController.Reconcile |
| MovieWorld.WebApi/Controllers/MoviesController.cs:171-173 | `Description`, `Language` and `ReleaseDate` are assigned their own stored values | an update whose description differs from the stored one leaves the stored description in place and returns it | the three fields take the request's values, as `Title` and `CoverImage` do | medium; not executed | MoviesController.Update | MoviesController.UpdateCorrected |

The controller model (`MoviesController.Update`) keeps the as-written behaviour. `MoviesController.UpdateCorrected` is the intended update and uses `Reconcile`.

## Left out

- Database access (EF Core, SQL Server, `SaveChangesAsync`): the store is a pair of maps with a fixed scan order per table. Each action is one atomic transition, so there is no concurrency and the listing count and page come from the same state.
- AutoMapper is modelled as plain field copies. The class definitions of `MovieListViewModel`, `MovieDetailsViewModel` and `ActorViewModel` are not modelled. List entries are the stored movie records, and the view shapes follow how the controllers fill them (MoviesController.cs:192-206).
- MoviesController.GetAll: requires non-negative paging arguments whose offset `pageIndex * pageSize` fits a 32-bit int. The source sends negative offsets and 32-bit wrap-around to the database, where they fault into "Something went wrong." or page at a wrapped offset.
- MoviesController.GetAll: a page size of 0 answers "Success" with an empty page. On SQL Server, `Take(0)` becomes `FETCH NEXT 0 ROWS ONLY`, which the database refuses, so the source would likely answer "Something went wrong.". The database's behaviour is not part of this model.
- PersonsController.GetAll: requires the same paging bounds, for the same reason, and answers a page size of 0 with an empty page, as the movie listing does.
- The catch-all "Something went wrong." branches are not modelled. They fire on infrastructure faults and on the null dereference below.
- MoviesController.AddMovie: a request always carries an actor sequence. In the source `CreateMovieViewModel.Actors` has no `[Required]`, so a body without `actors` binds it to null; the actor query and `model.Actors.Count` (MoviesController.cs:92-94) then fail on the null list, and the action answers "Something went wrong." (or, with nullable reference types enabled, validation fails first). The model chooses to leave that path out.
- MoviesController.Update: the same null `Actors` path applies and is left out for the same reason.
- Model binding is not modelled: `ModelState` is an input. Both controllers carry `[ApiController]` and `Program.cs` calls plain `AddControllers()` without suppressing the automatic model-state filter. So the framework does answer an invalid model with its own 400 before the action runs, and the actions' "Validation failed." branches are never reached in the running service. The `!state.IsValid()` clauses of `AddMovie`, `Update`, `UpdateCorrected` and `AddPerson` model those branches as written. Nullable reference types are covered by the next line.
- Validation.CreateMovieModelState: assumes nullable reference types are disabled. The project file is not part of the source, but the code relies on implicit usings, which suggests the .NET 6+ web API template, and that template enables nullable reference types. In such a build MVC also treats the non-nullable `Description`, `Actors` and `CoverImage` as implicitly required. A body that omits one of them is then invalid under that field's own key. So the model's "valid exactly when Title and Language are present and not blank" and "no other key appears" hold only with nullable disabled.
- Upload: parsing the content-disposition header is not modelled (its file name is an input). Directory creation, the file write, `Guid.NewGuid()` (the stem is an input) and building the URL from the request's scheme and host are left out too.
- PosterUpload.ExtensionIsLastDotSuffix: directory separators are those of the Windows host, '\\' and '/'. A Unix host would treat only '/' as one.
- Identity values and ids are unbounded integers, so identity-column overflow is not modelled. `DateTime` values are opaque.
- Startup configuration, static-file serving and Swagger (`Program.cs`) are outside the model.

=== FILE: catalogue_properties.dfy ===
/** Properties that relate the movie actions to the person lookup: what a
    person's detail view shows after a movie is added, updated or
    deleted. */
module CatalogueProperties {
  import opened Collections
  import opened Entities
  import opened Responses
  import opened MoviesController
  import opened PersonsController

  /** After a successful add, looking up any requested actor lists the new
      movie's title. */
  lemma AddedMovieInCastFilmographies(c: Catalogue, req: MovieRequest, state: ModelState, personId: int)
    requires Valid(c) && state.IsValid() && ActorsResolve(c, req.actors)
    requires personId in req.actors
    ensures var next := AddMovie(c, req, state).next;
      req.title in GetPersonById(next, personId).envelope.data.value.person.movies
  {
    var next := AddMovie(c, req, state).next;
    var id := c.nextMovieId;
    assert id in Filmography(next, personId);
    assert next.movies[id].title == req.title;
    assert req.title in FilmographyTitles(next, personId);
  }

  /** An update as written never changes which movies cast a person, so
      every person lookup answers as before. */
  lemma UpdateKeepsFilmographies(c: Catalogue, req: UpdateRequest, state: ModelState, personId: int)
    requires Valid(c)
    ensures Filmography(Update(c, req, state).next, personId) == Filmography(c, personId)
  {
  }

  /** After a delete, no person lookup lists the deleted movie any more,
      and every other movie that cast the person still does. */
  lemma DeleteDropsFromFilmographies(c: Catalogue, id: int, personId: int)
    requires Valid(c) && id in c.movies
    ensures Filmography(Delete(c, id).next, personId) == Filmography(c, personId) - {id}
  {
  }

  /** Adding a movie and looking it up by the new id gives back the
      submitted fields and exactly the requested cast. */
  lemma AddThenLookUpMovie(c: Catalogue, req: MovieRequest, state: ModelState)
    requires Valid(c) && state.IsValid() && ActorsResolve(c, req.actors)
    ensures var next := AddMovie(c, req, state).next;
      var found := GetMovieById(next, c.nextMovieId).envelope;
      && found.status
      && DescribesMovie(next, NewMovie(c.nextMovieId, req, ToSet(req.actors)), found.data.value.movie)
  {
  }
}

=== FILE: collections.dfy ===
/** Sequence and set helpers shared by the controllers: duplicate-freedom,
    the set of a list's elements, filtering in list order, and the
    Skip/Take paging slice. */
module Collections {

  /** No element occurs twice. */
  ghost predicate Distinct<T>(s: seq<T>) {
    forall i, j | 0 <= i < j < |s| :: s[i] != s[j]
  }

  /** The list's elements as a set (the `Contains` view of a list). */
  function ToSet<T(!new)>(s: seq<T>): (r: set<T>)
    ensures forall x :: x in r <==> x in s
  {
    set x | x in s
  }

  /** A duplicate-free list whose elements are exactly `keys`: one
      fixed enumeration of a table's rows. */
  ghost predicate Enumerates<T(!new)>(rows: seq<T>, keys: set<T>) {
    Distinct(rows) && ToSet(rows) == keys
  }

  /** The elements of `s` satisfying `p`, in their order in `s`
      (LINQ `Where`). */
  function Filter<T(!new)>(s: seq<T>, p: T -> bool): (r: seq<T>)
    ensures |r| <= |s|
    ensures forall x :: x in r <==> x in s && p(x)
    ensures Distinct(s) ==> Distinct(r)
  {
    if |s| == 0 then []
    else if p(s[0]) then [s[0]] + Filter(s[1..], p)
    else Filter(s[1..], p)
  }

  const Int32Max := 0x7fff_ffff

  /** Paging arguments (`int pageIndex = 0, int pageSize = 10`) the store
      executes without faulting: both non-negative and the offset
      `pageIndex * pageSize` within a 32-bit int. */
  predicate PagingInRange(pageIndex: int, pageSize: int) {
    && 0 <= pageIndex <= Int32Max
    && 0 <= pageSize <= Int32Max
    && pageIndex * pageSize <= Int32Max
  }

  /** LINQ `Skip(skip).Take(take)`: skipping past the end leaves nothing,
      taking more than is left takes what is left. */
  function Page<T>(s: seq<T>, skip: nat, take: nat): (r: seq<T>)
    ensures |r| <= take
    ensures skip >= |s| ==> r == []
    ensures skip < |s| ==> |r| == if take < |s| - skip then take else |s| - skip
    ensures forall k | 0 <= k < |r| :: skip + k < |s| && r[k] == s[skip + k]
  {
    if skip >= |s| then []
    else if take < |s| - skip then s[skip..skip + take]
    else s[skip..]
  }

  lemma DistinctCons<T>(a: T, t: seq<T>)
    ensures Distinct([a] + t) <==> a !in t && Distinct(t)
  {
    var s := [a] + t;
    if a !in t && Distinct(t) {
      forall i, j | 0 <= i < j < |s| ensures s[i] != s[j] {
        if i == 0 {
          assert s[j] == t[j - 1];
        } else {
          assert s[i] == t[i - 1] && s[j] == t[j - 1];
        }
      }
    }
    if a in t {
      var j :| 0 <= j < |t| && t[j] == a;
      assert s[0] == s[j + 1];
    }
    if Distinct(s) {
      forall i, j | 0 <= i < j < |t| ensures t[i] != t[j] {
        assert s[i + 1] == t[i] && s[j + 1] == t[j];
      }
    }
  }

  /** A list has at least as many entries as distinct elements, and
      exactly as many iff it has no duplicates. */
  lemma {:induction false} ToSetCardinality<T(!new)>(s: seq<T>)
    ensures |ToSet(s)| <= |s|
    ensures |ToSet(s)| == |s| <==> Distinct(s)
  {
    if |s| == 0 {
      assert ToSet(s) == {};
    } else {
      var a, t := s[0], s[1..];
      assert s == [a] + t;
      ToSetCardinality(t);
      DistinctCons(a, t);
      if a in t {
        assert ToSet(s) == ToSet(t);
      } else {
        assert ToSet(s) == {a} + ToSet(t);
        assert |ToSet(s)| == 1 + |ToSet(t)|;
      }
    }
  }

  /** Intersecting can only shrink a set, and leaves it as large as it
      was exactly when it lies inside the other set. */
  lemma IntersectionCardinality<T>(x: set<T>, y: set<T>)
    ensures |x * y| <= |x|
    ensures |x * y| == |x| <==> x <= y
  {
    assert x == (x * y) + (x - y);
    assert (x * y) * (x - y) == {};
    if |x * y| == |x| {
      SubsetOfEqualSize(x * y, x);
    }
  }

  /** A subset as large as its finite superset is the superset. */
  lemma SubsetOfEqualSize<T>(x: set<T>, y: set<T>)
    requires x <= y && |x| == |y|
    ensures x == y
  {
    var rest := y - x;
    assert y == x + rest && x * rest == {};
  }

  /** A filter that every element passes changes nothing. */
  lemma {:induction false} FilterKeepsAll<T(!new)>(s: seq<T>, keep: T -> bool)
    requires forall k | 0 <= k < |s| :: keep(s[k])
    ensures Filter(s, keep) == s
    decreases |s|
  {
    if |s| > 0 {
      FilterKeepsAll(s[1..], keep);
      assert [s[0]] + s[1..] == s;
    }
  }

  /** Filtering out the element at position `p` of a duplicate-free list
      removes that one position and keeps the order of the rest. */
  lemma {:induction false} FilterDropsAt<T(!new)>(s: seq<T>, keep: T -> bool, p: nat)
    requires p < |s| && Distinct(s)
    requires forall y :: keep(y) <==> y != s[p]
    ensures Filter(s, keep) == s[..p] + s[p + 1..]
    decreases |s|
  {
    if p == 0 {
      FilterKeepsAll(s[1..], keep);
    } else {
      assert s[0] != s[p];
      assert Distinct(s[1..]);
      FilterDropsAt(s[1..], keep, p - 1);
      assert s[..p] == [s[0]] + s[1..][..p - 1];
      assert s[p + 1..] == s[1..][p..];
    }
  }

  /** Filtering out a listed element of a duplicate-free list removes its
      one position and keeps the order of the rest. */
  lemma FilterDropsOne<T(!new)>(s: seq<T>, keep: T -> bool, x: T)
    requires Distinct(s) && x in s
    requires forall y :: keep(y) <==> y != x
    ensures exists p | 0 <= p < |s| && s[p] == x :: Filter(s, keep) == s[..p] + s[p + 1..]
  {
    var p :| 0 <= p < |s| && s[p] == x;
    FilterDropsAt(s, keep, p);
  }

  /** Appending a new element keeps a list duplicate-free. */
  lemma DistinctSnoc<T>(s: seq<T>, a: T)
    requires Distinct(s) && a !in s
    ensures Distinct(s + [a])
  {
    var t := s + [a];
    forall i, j | 0 <= i < j < |t| ensures t[i] != t[j] {
      if j == |s| {
        assert t[i] == s[i];
      } else {
        assert t[i] == s[i] && t[j] == s[j];
      }
    }
  }

  /** The values a map holds under the listed keys, in list order. */
  function Lookup<K, V>(m: map<K, V>, keys: seq<K>): (r: seq<V>)
    requires forall k | 0 <= k < |keys| :: keys[k] in m
    ensures |r| == |keys|
    ensures forall k | 0 <= k < |keys| :: r[k] == m[keys[k]]
  {
    if |keys| == 0 then []
    else [m[keys[0]]] + Lookup(m, keys[1..])
  }
}

=== FILE: entities.dfy ===
/** The persisted entities and the store that holds them. The relational
    tables become maps keyed by identity; the movie-to-actor join table
    becomes each movie's set of person ids. SQL row order is unspecified,
    so each table also carries one fixed enumeration of its keys, the order
    in which a scan returns its rows. */
module Entities {
  import opened Collections

  /** A `DateTime`, kept opaque: no operation here inspects it. */
  type Date = int

  datatype Movie = Movie(
    id: int,
    title: string,
    description: string,
    language: string,
    releaseDate: Date,
    coverImage: string,
    actors: set<int>)

  datatype Person = Person(id: int, name: string, dateOfBirth: Date)

  /** The database: both tables, their scan orders, and the next identity
      value each table's identity column will hand out. */
  datatype Catalogue = Catalogue(
    movies: map<int, Movie>,
    movieRows: seq<int>,
    nextMovieId: int,
    persons: map<int, Person>,
    personRows: seq<int>,
    nextPersonId: int)

  /** Every movie is stored under its own positive id, below the next
      identity value, and casts only persons that exist. */
  ghost predicate MoviesWellFormed(c: Catalogue) {
    forall id | id in c.movies ::
      && c.movies[id].id == id
      && 0 < id < c.nextMovieId
      && c.movies[id].actors <= c.persons.Keys
  }

  /** Every person is stored under its own positive id, below the next
      identity value. */
  ghost predicate PersonsWellFormed(c: Catalogue) {
    forall id | id in c.persons ::
      c.persons[id].id == id && 0 < id < c.nextPersonId
  }

  /** The store invariant every controller action preserves. */
  ghost predicate Valid(c: Catalogue) {
    && Enumerates(c.movieRows, c.movies.Keys)
    && Enumerates(c.personRows, c.persons.Keys)
    && 0 < c.nextMovieId
    && 0 < c.nextPersonId
    && MoviesWellFormed(c)
    && PersonsWellFormed(c)
  }

  /** A freshly created database: no rows, identities start at 1. */
  function EmptyCatalogue(): (c: Catalogue)
    ensures Valid(c)
    ensures |c.movies| == 0 && |c.persons| == 0
  {
    Catalogue(map[], [], 1, map[], [], 1)
  }

  /** A scan returns each row once: a table's row count is its key count. */
  lemma RowCounts(c: Catalogue)
    requires Valid(c)
    ensures |c.movieRows| == |c.movies|
    ensures |c.personRows| == |c.persons|
  {
    ToSetCardinality(c.movieRows);
    ToSetCardinality(c.personRows);
  }
}

=== FILE: movies_controller.dfy ===
/** The decision logic of `MoviesController`: listing, lookup, add, update
    and delete, each one atomic transition of the catalogue that also
    yields the response envelope. */
module MoviesController {
  import opened Collections
  import opened Entities
  import opened Responses

  /** `CreateMovieViewModel`, the body of an add request. */
  datatype MovieRequest = MovieRequest(
    title: string,
    description: string,
    actors: seq<int>,
    language: string,
    releaseDate: Date,
    coverImage: string)

  /** `UpdateMovieViewModel`: the id of the movie to change plus the
      fields of a create request. */
  datatype UpdateRequest = UpdateRequest(id: int, movie: MovieRequest)

  /** The requested cast names every actor once and only existing persons. */
  ghost predicate ActorsResolve(c: Catalogue, ids: seq<int>) {
    Distinct(ids) && forall k | 0 <= k < |ids| :: ids[k] in c.persons
  }

  /** The persons whose id the request lists, in scan order: the query
      `Persons.Where(p => model.Actors.Contains(p.Id))`. */
  function MatchedActors(c: Catalogue, ids: seq<int>): (r: seq<int>)
    requires Valid(c)
    ensures Distinct(r)
    ensures forall id :: id in r <==> id in ids && id in c.persons
  {
    PersonsIn(c, ToSet(ids))
  }

  /** The controller's test `actors.Count != model.Actors.Count` rejects
      exactly the lists that repeat an id or name a missing person. */
  lemma MatchCountIffResolve(c: Catalogue, ids: seq<int>)
    requires Valid(c)
    ensures |MatchedActors(c, ids)| == |ids| <==> ActorsResolve(c, ids)
  {
    var named := ToSet(ids);
    assert |MatchedActors(c, ids)| == |named * c.persons.Keys|;
    ToSetCardinality(ids);
    IntersectionCardinality(named, c.persons.Keys);
    assert named <= c.persons.Keys <==> forall k | 0 <= k < |ids| :: ids[k] in c.persons;
  }

  /** GET getall: one page of movies in scan order, and the total number
      of movies, which does not depend on the page. */
  function GetAll(c: Catalogue, pageIndex: int, pageSize: int): (r: Reply)
    requires Valid(c) && PagingInRange(pageIndex, pageSize)
    ensures r.next == c
    ensures r.envelope.status && r.envelope.message == SuccessMessage
    ensures r.envelope.data.Some? && r.envelope.data.value.MovieList?
    ensures r.envelope.data.value.count == |c.movies|
    ensures var page, skip := r.envelope.data.value.movies, pageIndex * pageSize;
      && |page| <= pageSize
      && (skip >= |c.movies| ==> |page| == 0)
      && (skip < |c.movies| ==> |page| == if pageSize < |c.movies| - skip then pageSize else |c.movies| - skip)
      && forall k | 0 <= k < |page| :: skip + k < |c.movieRows| && page[k] == c.movies[c.movieRows[skip + k]]
  {
    RowCounts(c);
    var rows := Page(c.movieRows, pageIndex * pageSize, pageSize);
    var page := Lookup(c.movies, rows);
    Reply(c, Envelope(true, SuccessMessage, Some(MovieList(page, |c.movies|))))
  }

  /** Every stored movie is listed on exactly the page its scan position
      falls in, at the matching offset. */
  lemma EveryMovieOnItsPage(c: Catalogue, position: nat, pageSize: int)
    requires Valid(c) && position < |c.movieRows|
    requires 0 < pageSize <= Int32Max && position <= Int32Max
    ensures PagingInRange(position / pageSize, pageSize)
    ensures var page := GetAll(c, position / pageSize, pageSize).envelope.data.value.movies;
      position % pageSize < |page| && page[position % pageSize] == c.movies[c.movieRows[position]]
  {
    var pageIndex, offset := position / pageSize, position % pageSize;
    PageArithmetic(position, pageSize);
    RowCounts(c);
    var page := GetAll(c, pageIndex, pageSize).envelope.data.value.movies;
    assert pageIndex * pageSize < |c.movies|;
    assert offset < |page|;
    assert page[offset] == c.movies[c.movieRows[pageIndex * pageSize + offset]];
  }

  /** Euclidean division of a scan position by a positive page size. */
  lemma PageArithmetic(position: nat, pageSize: int)
    requires 0 < pageSize
    ensures 0 <= position / pageSize <= position
    ensures 0 <= position % pageSize < pageSize
    ensures (position / pageSize) * pageSize + position % pageSize == position
  {
    var q := position / pageSize;
    NotBelowFactor(q, pageSize);
  }

  lemma NotBelowFactor(q: int, factor: int)
    requires 0 <= q && 0 < factor
    ensures q <= q * factor
  {
    assert q * factor == q + q * (factor - 1);
  }

  /** GET getbyid: the detail view of one movie, or "Movie does not exist.". */
  function GetMovieById(c: Catalogue, id: int): (r: Reply)
    requires Valid(c)
    ensures r.next == c
    ensures id !in c.movies ==> r.envelope == Failure(MovieMissingMessage)
    ensures id in c.movies ==>
      && r.envelope.status && r.envelope.message == SuccessMessage
      && r.envelope.data.Some? && r.envelope.data.value.MovieDetail?
      && DescribesMovie(c, c.movies[id], r.envelope.data.value.movie)
  {
    if id !in c.movies then Reply(c, Failure(MovieMissingMessage))
    else Reply(c, Envelope(true, SuccessMessage, Some(MovieDetail(MovieDetailsOf(c, c.movies[id])))))
  }

  /** The movie an add request describes once it has identity `id` and
      its cast. */
  function NewMovie(id: int, req: MovieRequest, cast: set<int>): Movie {
    Movie(id, req.title, req.description, req.language, req.releaseDate, req.coverImage, cast)
  }

  /** POST add. An invalid model is refused with its errors; a cast that
      does not resolve is refused; otherwise one new movie with the next
      identity, the submitted fields and exactly the requested cast is
      inserted and returned. Nothing else changes. */
  function AddMovie(c: Catalogue, req: MovieRequest, state: ModelState): (r: Reply)
    requires Valid(c)
    ensures Valid(r.next)
    ensures !state.IsValid() ==> r == Reply(c, ValidationFailure(state))
    ensures state.IsValid() && !ActorsResolve(c, req.actors) ==>
      r == Reply(c, Failure(InvalidActorsMessage))
    ensures state.IsValid() && ActorsResolve(c, req.actors) ==>
      var id := c.nextMovieId;
      && id !in c.movies
      && r.next.movies == c.movies[id := NewMovie(id, req, ToSet(req.actors))]
      && r.next.movieRows == c.movieRows + [id]
      && r.next.nextMovieId == id + 1
      && r.next.persons == c.persons
      && r.next.personRows == c.personRows
      && r.next.nextPersonId == c.nextPersonId
      && r.envelope.status && r.envelope.message == CreatedMessage
      && r.envelope.data.Some? && r.envelope.data.value.MovieDetail?
      && DescribesMovie(r.next, r.next.movies[id], r.envelope.data.value.movie)
  {
    if !state.IsValid() then Reply(c, ValidationFailure(state))
    else
      var actors := MatchedActors(c, req.actors);
      MatchCountIffResolve(c, req.actors);
      if |actors| != |req.actors| then Reply(c, Failure(InvalidActorsMessage))
      else
        var id := c.nextMovieId;
        var movie := NewMovie(id, req, ToSet(actors));
        assert ToSet(actors) == ToSet(req.actors);
        DistinctSnoc(c.movieRows, id);
        var next := c.(movies := c.movies[id := movie], movieRows := c.movieRows + [id],
                       nextMovieId := id + 1);
        Reply(next, Envelope(true, CreatedMessage, Some(MovieDetail(MovieDetailsOf(next, movie)))))
  }

  /** The cast reconciliation as the update action performs it: the
      actors missing from the request are removed, the set of actors to
      add is computed and never used, and the removed actors are then
      added back. The cast comes out as it went in, whatever the request. */
  function ReconcileAsWritten(cast: set<int>, requested: seq<int>, matched: seq<int>): (r: set<int>)
    ensures r == cast
  {
    var removed := set a | a in cast && a !in requested;
    var kept := cast - removed;
    var added := ToSet(matched) - kept;
    kept + removed
  }

  /** A movie whose cast is {1, 2} keeps it when the request names 2 and
      3: actor 1 is not dropped and actor 3 is not cast. */
  lemma StaleCastExample()
    ensures ReconcileAsWritten({1, 2}, [2, 3], [2, 3]) == {1, 2} != ToSet([2, 3])
  {
    assert 1 !in ToSet([2, 3]);
  }

  /** PUT update as written. Checks run in order: model state, id <= 0,
      cast, movie existence. On success only the title and cover image
      take the request's values; description, language, release date and
      the cast keep their stored values. */
  function Update(c: Catalogue, req: UpdateRequest, state: ModelState): (r: Reply)
    requires Valid(c)
    ensures Valid(r.next)
    ensures !state.IsValid() ==> r == Reply(c, ValidationFailure(state))
    ensures state.IsValid() && req.id <= 0 ==> r == Reply(c, Failure(InvalidMovieMessage))
    ensures state.IsValid() && req.id > 0 && !ActorsResolve(c, req.movie.actors) ==>
      r == Reply(c, Failure(InvalidActorsMessage))
    ensures state.IsValid() && req.id > 0 && ActorsResolve(c, req.movie.actors) && req.id !in c.movies ==>
      r == Reply(c, Failure(InvalidMovieMessage))
    ensures state.IsValid() && ActorsResolve(c, req.movie.actors) && req.id in c.movies ==>
      var stored := c.movies[req.id];
      && r.next == c.(movies := c.movies[req.id := stored.(title := req.movie.title, coverImage := req.movie.coverImage)])
      && r.next.movies[req.id].actors == stored.actors
      && r.envelope.status && r.envelope.message == UpdatedMessage
      && r.envelope.data.Some? && r.envelope.data.value.MovieDetail?
      && DescribesMovie(r.next, r.next.movies[req.id], r.envelope.data.value.movie)
  {
    if !state.IsValid() then Reply(c, ValidationFailure(state))
    else if req.id <= 0 then Reply(c, Failure(InvalidMovieMessage))
    else
      var actors := MatchedActors(c, req.movie.actors);
      MatchCountIffResolve(c, req.movie.actors);
      if |actors| != |req.movie.actors| then Reply(c, Failure(InvalidActorsMessage))
      else if req.id !in c.movies then Reply(c, Failure(InvalidMovieMessage))
      else
        var stored := c.movies[req.id];
        var movie := stored.(
          title := req.movie.title,
          description := stored.description,
          language := stored.language,
          releaseDate := stored.releaseDate,
          coverImage := req.movie.coverImage,
          actors := ReconcileAsWritten(stored.actors, req.movie.actors, actors));
        var next := c.(movies := c.movies[req.id := movie]);
        Reply(next, Envelope(true, UpdatedMessage, Some(MovieDetail(MovieDetailsOf(next, movie)))))
  }

  /** The two association changes a cast update calls for. */
  datatype CastChange = CastChange(toRemove: set<int>, toAdd: set<int>)

  /** The intended reconciliation: remove what is cast but not requested,
      add what is requested but not cast. */
  function Reconcile(cast: set<int>, requested: set<int>): (d: CastChange)
    ensures d.toRemove <= cast && d.toAdd !! cast
    ensures (cast - d.toRemove) + d.toAdd == requested
  {
    CastChange(cast - requested, requested - cast)
  }

  /** PUT update as evidently intended: the same checks in the same order,
      then every field takes the request's value and the cast becomes
      exactly the requested persons. */
  function UpdateCorrected(c: Catalogue, req: UpdateRequest, state: ModelState): (r: Reply)
    requires Valid(c)
    ensures Valid(r.next)
    ensures !state.IsValid() ==> r == Reply(c, ValidationFailure(state))
    ensures state.IsValid() && req.id <= 0 ==> r == Reply(c, Failure(InvalidMovieMessage))
    ensures state.IsValid() && req.id > 0 && !ActorsResolve(c, req.movie.actors) ==>
      r == Reply(c, Failure(InvalidActorsMessage))
    ensures state.IsValid() && req.id > 0 && ActorsResolve(c, req.movie.actors) && req.id !in c.movies ==>
      r == Reply(c, Failure(InvalidMovieMessage))
    ensures state.IsValid() && ActorsResolve(c, req.movie.actors) && req.id in c.movies ==>
      && r.next == c.(movies := c.movies[req.id := NewMovie(req.id, req.movie, ToSet(req.movie.actors))])
      && r.envelope.status && r.envelope.message == UpdatedMessage
      && r.envelope.data.Some? && r.envelope.data.value.MovieDetail?
      && DescribesMovie(r.next, r.next.movies[req.id], r.envelope.data.value.movie)
  {
    if !state.IsValid() then Reply(c, ValidationFailure(state))
    else if req.id <= 0 then Reply(c, Failure(InvalidMovieMessage))
    else
      var actors := MatchedActors(c, req.movie.actors);
      MatchCountIffResolve(c, req.movie.actors);
      if |actors| != |req.movie.actors| then Reply(c, Failure(InvalidActorsMessage))
      else if req.id !in c.movies then Reply(c, Failure(InvalidMovieMessage))
      else
        var stored := c.movies[req.id];
        var change := Reconcile(stored.actors, ToSet(actors));
        assert ToSet(actors) == ToSet(req.movie.actors);
        var movie := NewMovie(req.id, req.movie, (stored.actors - change.toRemove) + change.toAdd);
        var next := c.(movies := c.movies[req.id := movie]);
        Reply(next, Envelope(true, UpdatedMessage, Some(MovieDetail(MovieDetailsOf(next, movie)))))
  }

  /** DELETE delete: an unknown id is refused and changes nothing;
      otherwise exactly that movie (with its cast associations) is removed
      and every other movie and every person stays as it was; the other
      movies keep their scan order. The identity
      counters do not move back, so a deleted id is never handed out
      again. */
  function Delete(c: Catalogue, id: int): (r: Reply)
    requires Valid(c)
    ensures Valid(r.next)
    ensures id !in c.movies ==> r == Reply(c, Failure(InvalidMovieMessage))
    ensures id in c.movies ==>
      && r.next.movies.Keys == c.movies.Keys - {id}
      && (forall m | m in r.next.movies :: r.next.movies[m] == c.movies[m])
      && r.next.persons == c.persons
      && r.next.personRows == c.personRows
      && (exists p | 0 <= p < |c.movieRows| && c.movieRows[p] == id ::
            r.next.movieRows == c.movieRows[..p] + c.movieRows[p + 1..])
      && r.next.nextMovieId == c.nextMovieId
      && r.next.nextPersonId == c.nextPersonId
      && r.envelope == Envelope(true, DeletedMessage, None)
  {
    if id !in c.movies then Reply(c, Failure(InvalidMovieMessage))
    else
      var keep := (m: int) => m != id;
      FilterDropsOne(c.movieRows, keep, id);
      var rows := Filter(c.movieRows, keep);
      Reply(c.(movies := c.movies - {id}, movieRows := rows), Envelope(true, DeletedMessage, None))
  }
}

=== FILE: persons_controller.dfy ===
/** The decision logic of `PersonsController`: listing, lookup and add
    over the same catalogue the movie actions change. */
module PersonsController {
  import opened Collections
  import opened Entities
  import opened Responses

  /** `ActorViewModel` as posted to the add action; its id is ignored and
      overwritten with the one the store assigns. */
  datatype PersonRequest = PersonRequest(id: int, name: string, dateOfBirth: Date)

  /** GET getall: one page of persons in scan order, and the total number
      of persons, which does not depend on the page. */
  function GetAll(c: Catalogue, pageIndex: int, pageSize: int): (r: Reply)
    requires Valid(c) && PagingInRange(pageIndex, pageSize)
    ensures r.next == c
    ensures r.envelope.status && r.envelope.message == SuccessMessage
    ensures r.envelope.data.Some? && r.envelope.data.value.PersonList?
    ensures r.envelope.data.value.count == |c.persons|
    ensures var page, skip := r.envelope.data.value.persons, pageIndex * pageSize;
      && |page| <= pageSize
      && (skip >= |c.persons| ==> |page| == 0)
      && (skip < |c.persons| ==> |page| == if pageSize < |c.persons| - skip then pageSize else |c.persons| - skip)
      && forall k | 0 <= k < |page| :: skip + k < |c.personRows| && page[k] == ViewOf(c.persons[c.personRows[skip + k]])
  {
    RowCounts(c);
    var rows := Page(c.personRows, pageIndex * pageSize, pageSize);
    Reply(c, Envelope(true, SuccessMessage, Some(PersonList(Views(c.persons, rows), |c.persons|))))
  }

  /** The movies whose cast includes the person. */
  ghost function Filmography(c: Catalogue, personId: int): set<int> {
    set m | m in c.movies && personId in c.movies[m].actors
  }

  /** The ids of the movies casting the person, in scan order: the query
      `Movies.Where(m => m.Actors.Contains(person))`. */
  function MoviesStarring(c: Catalogue, personId: int): (r: seq<int>)
    requires Valid(c)
    ensures forall m :: m in r <==> m in Filmography(c, personId)
    ensures Enumerates(r, Filmography(c, personId))
    ensures |r| == |Filmography(c, personId)|
  {
    var starring := (m: int) => m in c.movies && personId in c.movies[m].actors;
    var r := Filter(c.movieRows, starring);
    ToSetCardinality(r);
    assert ToSet(r) == Filmography(c, personId);
    r
  }

  /** The titles of the listed movies, in the same order. */
  function Titles(c: Catalogue, rows: seq<int>): (r: seq<string>)
    requires forall k | 0 <= k < |rows| :: rows[k] in c.movies
    ensures |r| == |rows|
    ensures forall k | 0 <= k < |rows| :: r[k] == c.movies[rows[k]].title
  {
    var movies := Lookup(c.movies, rows);
    seq(|movies|, k requires 0 <= k < |movies| => movies[k].title)
  }

  /** The titles of the movies that cast the person. */
  ghost function FilmographyTitles(c: Catalogue, personId: int): set<string>
    requires Valid(c)
  {
    set m | m in Filmography(c, personId) :: c.movies[m].title
  }

  /** `titles` lists the titles of the movies that cast the person, one
      per such movie: it pairs position by position with some duplicate-free
      enumeration of those movies. */
  ghost predicate OneTitlePerMovie(c: Catalogue, personId: int, titles: seq<string>)
    requires Valid(c)
  {
    exists rows :: TitlesOf(c, personId, rows, titles)
  }

  /** `titles` are the titles of the movies `rows`, which enumerate the
      person's filmography. */
  ghost predicate TitlesOf(c: Catalogue, personId: int, rows: seq<int>, titles: seq<string>)
    requires Valid(c)
  {
    && Enumerates(rows, Filmography(c, personId))
    && |rows| == |titles|
    && forall k | 0 <= k < |rows| :: rows[k] in c.movies && titles[k] == c.movies[rows[k]].title
  }

  /** The titles of exactly the movies that cast the person, one per
      such movie, in scan order. */
  function FilmTitles(c: Catalogue, personId: int): (r: seq<string>)
    requires Valid(c)
    ensures OneTitlePerMovie(c, personId, r)
    ensures |r| == |Filmography(c, personId)|
    ensures ToSet(r) == FilmographyTitles(c, personId)
  {
    var rows := MoviesStarring(c, personId);
    var titles := Titles(c, rows);
    assert TitlesOf(c, personId, rows, titles);
    ListedTitlesAreFilmography(c, personId, rows, titles);
    FilmographyTitlesAreListed(c, personId, rows, titles);
    titles
  }

  lemma ListedTitlesAreFilmography(c: Catalogue, personId: int, rows: seq<int>, titles: seq<string>)
    requires Valid(c)
    requires |titles| == |rows|
    requires forall k | 0 <= k < |rows| :: rows[k] in Filmography(c, personId) && titles[k] == c.movies[rows[k]].title
    ensures ToSet(titles) <= FilmographyTitles(c, personId)
  {
    forall t | t in ToSet(titles) ensures t in FilmographyTitles(c, personId) {
      var k :| 0 <= k < |titles| && titles[k] == t;
      var m := rows[k];
      assert m in Filmography(c, personId) && c.movies[m].title == t;
    }
  }

  lemma FilmographyTitlesAreListed(c: Catalogue, personId: int, rows: seq<int>, titles: seq<string>)
    requires Valid(c)
    requires forall m :: m in rows <==> m in Filmography(c, personId)
    requires |titles| == |rows|
    requires forall k | 0 <= k < |rows| :: rows[k] in c.movies && titles[k] == c.movies[rows[k]].title
    ensures FilmographyTitles(c, personId) <= ToSet(titles)
  {
    forall t | t in FilmographyTitles(c, personId) ensures t in ToSet(titles) {
      var m :| m in Filmography(c, personId) && c.movies[m].title == t;
      var k :| 0 <= k < |rows| && rows[k] == m;
      assert titles[k] == t;
    }
  }

  /** GET getbyid: the person with the titles of exactly the movies that
      cast them, or a failure that, as in the source, reads "Movie does
      not exist.". */
  function GetPersonById(c: Catalogue, id: int): (r: Reply)
    requires Valid(c)
    ensures r.next == c
    ensures id !in c.persons ==> r.envelope == Failure(MovieMissingMessage)
    ensures id in c.persons ==>
      && r.envelope.status && r.envelope.message == SuccessMessage
      && r.envelope.data.Some? && r.envelope.data.value.PersonDetail?
      && var d := r.envelope.data.value.person;
      && d.id == id
      && d.name == c.persons[id].name
      && d.dateOfBirth == c.persons[id].dateOfBirth
      && OneTitlePerMovie(c, id, d.movies)
      && |d.movies| == |Filmography(c, id)|
      && ToSet(d.movies) == FilmographyTitles(c, id)
      && (d.movies == [] <==> Filmography(c, id) == {})
  {
    if id !in c.persons then Reply(c, Failure(MovieMissingMessage))
    else
      var person := c.persons[id];
      Reply(c, Envelope(true, SuccessMessage, Some(PersonDetail(
        PersonDetails(person.id, person.name, person.dateOfBirth, FilmTitles(c, id))))))
  }

  /** POST add. An invalid model is refused with its errors; otherwise one
      person with the next identity and the submitted name and date of
      birth is inserted, and the posted model comes back carrying that id.
      No existing record changes. */
  function AddPerson(c: Catalogue, req: PersonRequest, state: ModelState): (r: Reply)
    requires Valid(c)
    ensures Valid(r.next)
    ensures !state.IsValid() ==> r == Reply(c, ValidationFailure(state))
    ensures state.IsValid() ==>
      var id := c.nextPersonId;
      && id !in c.persons
      && r.next.persons == c.persons[id := Person(id, req.name, req.dateOfBirth)]
      && r.next.personRows == c.personRows + [id]
      && r.next.nextPersonId == id + 1
      && r.next.movies == c.movies
      && r.next.movieRows == c.movieRows
      && r.next.nextMovieId == c.nextMovieId
      && r.envelope == Envelope(true, CreatedMessage, Some(CreatedPerson(ActorView(id, req.name, req.dateOfBirth))))
  {
    if !state.IsValid() then Reply(c, ValidationFailure(state))
    else
      var id := c.nextPersonId;
      DistinctSnoc(c.personRows, id);
      var next := c.(persons := c.persons[id := Person(id, req.name, req.dateOfBirth)],
                     personRows := c.personRows + [id],
                     nextPersonId := id + 1);
      Reply(next, Envelope(true, CreatedMessage, Some(CreatedPerson(ActorView(id, req.name, req.dateOfBirth)))))
  }

  /** Adding a person and looking up the returned id yields that person
      with no movies: nothing can cast a person before they exist. */
  lemma AddThenLookUpPerson(c: Catalogue, req: PersonRequest, state: ModelState)
    requires Valid(c) && state.IsValid()
    ensures var added := AddPerson(c, req, state);
      var id := added.envelope.data.value.created.id;
      GetPersonById(added.next, id).envelope
        == Envelope(true, SuccessMessage, Some(PersonDetail(PersonDetails(id, req.name, req.dateOfBirth, []))))
  {
    var added := AddPerson(c, req, state);
    var id := c.nextPersonId;
    assert Filmography(added.next, id) == {} by {
      forall m | m in added.next.movies ensures id !in added.next.movies[m].actors {
        assert added.next.movies[m].actors <= c.persons.Keys;
      }
    }
  }
}

=== FILE: poster_upload.dfy ===
/** The decision part of `UploadMoviePoster`: recover the file name from
    the upload's content disposition, accept it only for a whitelisted
    extension, and name the stored file by a fresh stem plus that same
    extension. Writing the file and building its URL are not modelled. */
module PosterUpload {
  import opened Responses

  const AllowedExtensions: set<string> := {".jpg", ".jpeg", ".png"}
  const ExtensionRejectedMessage := "Only .jpg, .jpeg, .png type files are allowed."
  const UploadErrorMessage := "Error occured."

  /** Directory separators of the Windows host the service targets. */
  predicate IsSeparator(ch: char) {
    ch == '\\' || ch == '/'
  }

  /** `TrimStart('"')`: every leading double quote is dropped. */
  function TrimStartQuotes(s: string): (r: string)
    ensures |r| <= |s| && r == s[|s| - |r|..]
    ensures forall k | 0 <= k < |s| - |r| :: s[k] == '"'
    ensures r == [] || r[0] != '"'
  {
    if |s| > 0 && s[0] == '"' then TrimStartQuotes(s[1..]) else s
  }

  /** `TrimEnd('"')`: every trailing double quote is dropped. */
  function TrimEndQuotes(s: string): (r: string)
    ensures |r| <= |s| && r == s[..|r|]
    ensures forall k | |r| <= k < |s| :: s[k] == '"'
    ensures r == [] || r[|r| - 1] != '"'
  {
    if |s| > 0 && s[|s| - 1] == '"' then TrimEndQuotes(s[..|s| - 1]) else s
  }

  /** The file name as the action reads it from the quoted
      `filename="..."` parameter. */
  function UnquotedName(s: string): (r: string)
    ensures r == [] || (r[0] != '"' && r[|r| - 1] != '"')
  {
    TrimEndQuotes(TrimStartQuotes(s))
  }

  /** The unquoted name is the original name with its leading and trailing
      quotes cut off, and it neither starts nor ends with a quote; the two
      together determine it. */
  lemma UnquotedNameStripsQuotes(s: string)
    ensures exists i, j | 0 <= i <= j <= |s| ::
      && UnquotedName(s) == s[i..j]
      && (forall k | 0 <= k < i :: s[k] == '"')
      && (forall k | j <= k < |s| :: s[k] == '"')
    ensures UnquotedName(s) == [] || (UnquotedName(s)[0] != '"' && UnquotedName(s)[|UnquotedName(s)| - 1] != '"')
  {
    var i, j := UnquotedBounds(s);
  }

  /** Where the unquoted name lies inside the original one. */
  lemma UnquotedBounds(s: string) returns (i: nat, j: nat)
    ensures i <= j <= |s| && UnquotedName(s) == s[i..j]
    ensures forall k | 0 <= k < i :: s[k] == '"'
    ensures forall k | j <= k < |s| :: s[k] == '"'
  {
    var t := TrimStartQuotes(s);
    var r := TrimEndQuotes(t);
    i := |s| - |t|;
    j := i + |r|;
    assert r == s[i..j];
    forall k | j <= k < |s| ensures s[k] == '"' {
      assert s[k] == t[k - i];
    }
  }

  /** Position `i` starts the extension of `path`: a dot that is not the
      last character and is followed by neither a dot nor a separator. */
  ghost predicate ExtensionStartsAt(path: string, i: int) {
    && 0 <= i < |path| - 1
    && path[i] == '.'
    && forall k | i < k < |path| :: path[k] != '.' && !IsSeparator(path[k])
  }

  /** The scan of `Path.GetExtension` from position `i` leftwards: the
      first dot found ends the scan with the suffix it starts, unless it is
      the last character; a separator or the start of the name ends it
      with nothing. */
  function ExtensionScan(path: string, i: nat): (e: string)
    requires i <= |path|
    decreases i
  {
    if i == 0 then []
    else if path[i - 1] == '.' then (if i == |path| then [] else path[i - 1..])
    else if IsSeparator(path[i - 1]) then []
    else ExtensionScan(path, i - 1)
  }

  /** The scan from `i`, over characters from `i` on that are neither dots
      nor separators, finds exactly the extension start below `i`, if any. */
  lemma {:induction false} ExtensionScanFinds(path: string, i: nat)
    requires i <= |path|
    requires forall k | i <= k < |path| :: path[k] != '.' && !IsSeparator(path[k])
    ensures ExtensionScan(path, i) == [] <==> forall j | 0 <= j < i :: !ExtensionStartsAt(path, j)
    ensures forall j | 0 <= j < i && ExtensionStartsAt(path, j) :: ExtensionScan(path, i) == path[j..]
    decreases i
  {
    if i == 0 {
    } else if path[i - 1] == '.' {
      if i < |path| {
        assert ExtensionStartsAt(path, i - 1);
      }
    } else if IsSeparator(path[i - 1]) {
    } else {
      ExtensionScanFinds(path, i - 1);
    }
  }

  /** `Path.GetExtension`: from the last dot of the last path segment to
      the end, dot included; empty when there is no such dot or it ends
      the name. */
  function Extension(path: string): string {
    ExtensionScan(path, |path|)
  }

  /** The extension is empty exactly when no position starts one, and
      otherwise it is the suffix from the position that does. */
  lemma ExtensionIsLastDotSuffix(path: string)
    ensures Extension(path) == [] <==> forall j | 0 <= j < |path| :: !ExtensionStartsAt(path, j)
    ensures forall j | 0 <= j < |path| && ExtensionStartsAt(path, j) :: Extension(path) == path[j..]
  {
    ExtensionScanFinds(path, |path|);
  }

  /** `ext` has the shape of an extension: a dot, then at least one
      character that is neither a dot nor a separator. */
  ghost predicate IsExtension(ext: string) {
    |ext| >= 2 && ExtensionStartsAt(ext, 0)
  }

  /** A name ending in an extension-shaped suffix has that extension,
      whatever comes before it. */
  lemma ExtensionOfSuffix(stem: string, ext: string)
    requires IsExtension(ext)
    ensures Extension(stem + ext) == ext
  {
    var path := stem + ext;
    assert path[|stem|..] == ext;
    assert ExtensionStartsAt(path, |stem|);
    ExtensionIsLastDotSuffix(path);
  }

  /** What the action answers: the name the poster is stored under, or a
      failure envelope. */
  datatype UploadReply = Stored(fileName: string) | Rejected(envelope: Envelope)

  /** POST upload. `fileName` is the content disposition's file name
      (None when the header carries none, which makes the action fault
      and answer "Error occured."); `stem` is the fresh GUID text. The
      upload is accepted exactly when the unquoted name's extension is
      one of ".jpg", ".jpeg", ".png", compared case-sensitively, and the
      stored name is the stem followed by that extension. */
  function Upload(fileName: Option<string>, stem: string): (r: UploadReply)
    ensures fileName.None? ==> r == Rejected(Failure(UploadErrorMessage))
    ensures fileName.Some? ==>
      (r.Stored? <==> Extension(UnquotedName(fileName.value)) in AllowedExtensions)
    ensures fileName.Some? && r.Rejected? ==> r == Rejected(Failure(ExtensionRejectedMessage))
    ensures r.Stored? ==> fileName.Some? && r.fileName == stem + Extension(UnquotedName(fileName.value))
  {
    match fileName
    case None => Rejected(Failure(UploadErrorMessage))
    case Some(raw) =>
      var ext := Extension(UnquotedName(raw));
      if ext !in AllowedExtensions then Rejected(Failure(ExtensionRejectedMessage))
      else Stored(stem + ext)
  }

  /** The stored name keeps the extension the upload was accepted for, so
      the poster is served with the type it was uploaded as. */
  lemma StoredNameKeepsExtension(fileName: Option<string>, stem: string)
    ensures var r := Upload(fileName, stem);
      r.Stored? ==> Extension(r.fileName) == Extension(UnquotedName(fileName.value))
  {
    if Upload(fileName, stem).Stored? {
      var ext := Extension(UnquotedName(fileName.value));
      AllowedAreExtensions(ext);
      ExtensionOfSuffix(stem, ext);
    }
  }

  /** A name that neither starts nor ends with a quote is left as it is. */
  lemma UnquoteBare(name: string)
    requires |name| > 0 && name[0] != '"' && name[|name| - 1] != '"'
    ensures UnquotedName(name) == name
  {
  }

  /** One pair of surrounding quotes is removed. */
  lemma UnquoteQuoted(name: string)
    requires |name| > 0 && name[0] != '"' && name[|name| - 1] != '"'
    ensures UnquotedName("\"" + name + "\"") == name
  {
    var quoted := "\"" + name + "\"";
    assert quoted[1..] == name + "\"";
    assert TrimStartQuotes(quoted) == TrimStartQuotes(name + "\"") == name + "\"";
    assert (name + "\"")[..|name|] == name;
    assert TrimEndQuotes(name + "\"") == TrimEndQuotes(name) == name;
  }

  predicate EndsWith(s: string, suffix: string) {
    |suffix| <= |s| && s[|s| - |suffix|..] == suffix
  }

  /** Every whitelisted extension is extension-shaped. */
  lemma AllowedAreExtensions(ext: string)
    requires ext in AllowedExtensions
    ensures IsExtension(ext) && ext[|ext| - 1] != '"'
  {
    assert ext == ".jpg" || ext == ".jpeg" || ext == ".png";
  }

  /** A name whose extension is whitelisted is accepted, quoted or not. */
  lemma ListedExtensionAccepted(name: string, stem: string)
    requires |name| > 0 && name[0] != '"' && name[|name| - 1] != '"'
    requires Extension(name) in AllowedExtensions
    ensures Upload(Some(name), stem) == Stored(stem + Extension(name))
    ensures Upload(Some("\"" + name + "\""), stem) == Stored(stem + Extension(name))
  {
    UnquoteBare(name);
    UnquoteQuoted(name);
  }

  /** A name ending in a whitelisted extension is accepted, quoted or
      not, and the stored name is the stem plus that extension. */
  lemma AllowedNameAccepted(name: string, ext: string, stem: string)
    requires ext in AllowedExtensions && EndsWith(name, ext) && name[0] != '"'
    ensures Upload(Some(name), stem) == Stored(stem + ext)
    ensures Upload(Some("\"" + name + "\""), stem) == Stored(stem + ext)
  {
    var prefix := name[..|name| - |ext|];
    assert name == prefix + ext;
    AllowedAreExtensions(ext);
    ExtensionOfSuffix(prefix, ext);
    assert name[|name| - 1] == ext[|ext| - 1];
    ListedExtensionAccepted(name, stem);
  }

  /** A name whose extension is not whitelisted is refused, quoted or
      not. */
  lemma UnlistedExtensionRejected(name: string, stem: string)
    requires |name| > 0 && name[0] != '"' && name[|name| - 1] != '"'
    requires Extension(name) !in AllowedExtensions
    ensures Upload(Some(name), stem) == Rejected(Failure(ExtensionRejectedMessage))
    ensures Upload(Some("\"" + name + "\""), stem) == Rejected(Failure(ExtensionRejectedMessage))
  {
    UnquoteBare(name);
    UnquoteQuoted(name);
  }

  /** The whitelist is case-sensitive: a name ending in ".JPG" is refused,
      whether or not the header quotes it. */
  lemma UpperCaseExtensionRejected(name: string, stem: string)
    requires EndsWith(name, ".JPG") && name[0] != '"'
    ensures Upload(Some(name), stem) == Rejected(Failure(ExtensionRejectedMessage))
    ensures Upload(Some("\"" + name + "\""), stem) == Rejected(Failure(ExtensionRejectedMessage))
  {
    var prefix := name[..|name| - 4];
    assert name == prefix + ".JPG";
    assert IsExtension(".JPG");
    ExtensionOfSuffix(prefix, ".JPG");
    assert ".JPG"[1] != ".jpg"[1];
    UnlistedExtensionRejected(name, stem);
  }

  /** Only the last extension counts: "poster.png.exe" and every other
      name ending in ".exe" is refused, quoted or not. */
  lemma ExecutableRejected(name: string, stem: string)
    requires EndsWith(name, ".exe") && name[0] != '"'
    ensures Upload(Some(name), stem) == Rejected(Failure(ExtensionRejectedMessage))
    ensures Upload(Some("\"" + name + "\""), stem) == Rejected(Failure(ExtensionRejectedMessage))
  {
    var prefix := name[..|name| - 4];
    assert name == prefix + ".exe";
    assert IsExtension(".exe");
    ExtensionOfSuffix(prefix, ".exe");
    assert ".exe"[1] != ".png"[1] && ".exe"[1] != ".jpg"[1];
    UnlistedExtensionRejected(name, stem);
  }
}

=== FILE: responses.dfy ===
/** The response envelope every action returns (`BaseResponseModel`), the
    view models it carries, and the projections from entities to views. */
module Responses {
  import opened Collections
  import opened Entities

  datatype Option<T> = None | Some(value: T)

  /** `ModelState` as the framework hands it to an action: field name to
      error message. It is valid exactly when it records no error. */
  datatype ModelState = ModelState(errors: map<string, string>) {
    predicate IsValid() {
      |errors| == 0
    }
  }

  /** `ActorViewModel`: a person without their movies. */
  datatype ActorView = ActorView(id: int, name: string, dateOfBirth: Date)

  /** `MovieDetailsViewModel`: a movie with its cast resolved to persons. */
  datatype MovieDetails = MovieDetails(
    id: int,
    title: string,
    description: string,
    actors: seq<ActorView>,
    language: string,
    releaseDate: Date,
    coverImage: string)

  /** `ActorDetailsViewModel`: a person with the titles of their movies. */
  datatype PersonDetails = PersonDetails(
    id: int,
    name: string,
    dateOfBirth: Date,
    movies: seq<string>)

  /** The operation-specific `Data` of an envelope. */
  datatype Payload =
    | MovieList(movies: seq<Movie>, count: int)
    | MovieDetail(movie: MovieDetails)
    | PersonList(persons: seq<ActorView>, count: int)
    | PersonDetail(person: PersonDetails)
    | CreatedPerson(created: ActorView)
    | ValidationErrors(errors: map<string, string>)

  /** `BaseResponseModel`. An envelope with status true is sent with
      HTTP 200, one with status false with HTTP 400. */
  datatype Envelope = Envelope(status: bool, message: string, data: Option<Payload>)

  /** The outcome of one action: the store after it and the envelope sent. */
  datatype Reply = Reply(next: Catalogue, envelope: Envelope)

  const SuccessMessage := "Success"
  const CreatedMessage := "Created successfully."
  const UpdatedMessage := "Updated successfully."
  const DeletedMessage := "Deleted successfully."
  const ValidationFailedMessage := "Validation failed."
  const InvalidActorsMessage := "Invalid actors assigned."
  const InvalidMovieMessage := "Invalid movie record."
  const MovieMissingMessage := "Movie does not exist."

  /** A failure envelope with no payload. */
  function Failure(message: string): (e: Envelope)
    ensures !e.status && e.message == message && e.data.None?
  {
    Envelope(false, message, None)
  }

  /** The envelope of an action whose model failed validation: the
      model state's errors go back to the caller. */
  function ValidationFailure(state: ModelState): (e: Envelope)
    requires !state.IsValid()
    ensures !e.status && e.message == ValidationFailedMessage
    ensures e.data == Some(ValidationErrors(state.errors)) && |state.errors| > 0
  {
    Envelope(false, ValidationFailedMessage, Some(ValidationErrors(state.errors)))
  }

  function ViewOf(p: Person): ActorView {
    ActorView(p.id, p.name, p.dateOfBirth)
  }

  /** The views of the persons listed in `ids`, in the same order. */
  function Views(persons: map<int, Person>, ids: seq<int>): (r: seq<ActorView>)
    requires forall k | 0 <= k < |ids| :: ids[k] in persons
    ensures |r| == |ids|
    ensures forall k | 0 <= k < |ids| :: r[k] == ViewOf(persons[ids[k]])
  {
    if |ids| == 0 then []
    else [ViewOf(persons[ids[0]])] + Views(persons, ids[1..])
  }

  /** The persons whose ids are in `ids`, in scan order: what a query
      `Persons.Where(p => ids.Contains(p.Id))` returns. */
  function PersonsIn(c: Catalogue, ids: set<int>): (r: seq<int>)
    requires Valid(c)
    ensures Distinct(r)
    ensures forall id :: id in r <==> id in ids && id in c.persons
    ensures |r| == |ids * c.persons.Keys|
  {
    var selected := (id: int) => id in ids;
    var r := Filter(c.personRows, selected);
    ToSetCardinality(r);
    assert ToSet(r) == ids * c.persons.Keys;
    r
  }

  /** A cast resolved to person views: one view per cast member, each the
      view of the stored person with that id. */
  function CastViews(c: Catalogue, cast: set<int>): (r: seq<ActorView>)
    requires Valid(c) && cast <= c.persons.Keys
    ensures |r| == |cast|
    ensures forall a: ActorView :: a in r <==> a.id in cast && a == ViewOf(c.persons[a.id])
  {
    var rows := PersonsIn(c, cast);
    assert cast * c.persons.Keys == cast;
    var r := Views(c.persons, rows);
    assert forall a: ActorView :: a in r ==> a.id in cast && a == ViewOf(c.persons[a.id]) by {
      forall a: ActorView | a in r ensures a.id in cast && a == ViewOf(c.persons[a.id]) {
        var k :| 0 <= k < |r| && r[k] == a;
        assert c.persons[rows[k]].id == rows[k];
      }
    }
    assert forall a: ActorView :: a.id in cast && a == ViewOf(c.persons[a.id]) ==> a in r by {
      forall a: ActorView | a.id in cast && a == ViewOf(c.persons[a.id]) ensures a in r {
        var k :| 0 <= k < |rows| && rows[k] == a.id;
        assert r[k] == a;
      }
    }
    r
  }

  /** `d` is the detail view of movie `m`: the movie's own fields, and its
      cast listed once per member with each member's stored data. */
  ghost predicate DescribesMovie(c: Catalogue, m: Movie, d: MovieDetails)
    requires m.actors <= c.persons.Keys
  {
    && d.id == m.id
    && d.title == m.title
    && d.description == m.description
    && d.language == m.language
    && d.releaseDate == m.releaseDate
    && d.coverImage == m.coverImage
    && |d.actors| == |m.actors|
    && forall a: ActorView :: a in d.actors <==> a.id in m.actors && a == ViewOf(c.persons[a.id])
  }

  /** The detail view of a stored movie, as the mapping profile produces it. */
  function MovieDetailsOf(c: Catalogue, m: Movie): (d: MovieDetails)
    requires Valid(c) && m.actors <= c.persons.Keys
    ensures DescribesMovie(c, m, d)
  {
    MovieDetails(m.id, m.title, m.description, CastViews(c, m.actors),
                 m.language, m.releaseDate, m.coverImage)
  }
}

=== FILE: validation.dfy ===
/** The model-state errors that the `[Required]` attributes of
    `CreateMovieViewModel` produce. A bound string is `None` when the
    request left the field out (null). */
module Validation {
  import opened Responses

  const TitleRequiredMessage := "Name of the movie is required."
  const LanguageRequiredMessage := "Language of the movie is required."

  /** `char.IsWhiteSpace`: the Unicode space, line and paragraph
      separators, the controls U+0009 to U+000D, and U+0085. */
  predicate IsWhiteSpace(ch: char) {
    || ch == ' '
    || ('\t' <= ch <= '\r')
    || ch == '\U{0085}'
    || ch == '\U{00A0}'
    || ch == '\U{1680}'
    || ('\U{2000}' <= ch <= '\U{200A}')
    || ch == '\U{2028}'
    || ch == '\U{2029}'
    || ch == '\U{202F}'
    || ch == '\U{205F}'
    || ch == '\U{3000}'
  }

  /** `[Required]` on a string (empty strings not allowed): the value
      must be present and hold a character that is not white space. */
  predicate SatisfiesRequired(value: Option<string>) {
    value.Some? && exists k | 0 <= k < |value.value| :: !IsWhiteSpace(value.value[k])
  }

  /** The errors recorded for one required field. */
  function RequiredFieldErrors(field: string, value: Option<string>, message: string): (errors: map<string, string>)
    ensures SatisfiesRequired(value) ==> errors == map[]
    ensures !SatisfiesRequired(value) ==> errors == map[field := message]
  {
    if SatisfiesRequired(value) then map[]
    else map[field := message]
  }

  /** The model state of an add or update request from its bound Title
      and Language: valid exactly when both satisfy `[Required]`, with one
      error per failing field under that field's name. */
  function CreateMovieModelState(title: Option<string>, language: Option<string>): (state: ModelState)
    ensures state.IsValid() <==> SatisfiesRequired(title) && SatisfiesRequired(language)
    ensures "Title" in state.errors <==> !SatisfiesRequired(title)
    ensures "Language" in state.errors <==> !SatisfiesRequired(language)
    ensures "Title" in state.errors ==> state.errors["Title"] == TitleRequiredMessage
    ensures "Language" in state.errors ==> state.errors["Language"] == LanguageRequiredMessage
    ensures state.errors.Keys <= {"Title", "Language"}
  {
    var titleErrors := RequiredFieldErrors("Title", title, TitleRequiredMessage);
    var languageErrors := RequiredFieldErrors("Language", language, LanguageRequiredMessage);
    assert "Title" != "Language";
    ModelState(titleErrors + languageErrors)
  }
}
